=== FILE: README.md ===
# Netflix content-strategy dashboard: the data core

This project models, in Dafny, the data logic of a Streamlit dashboard
over the Netflix catalog (`netflix_app.py`). The dashboard's work splits
into three parts:

- **The loader** (`load_data`). It fills missing `director`, `cast` and
  `country` cells with the sentinel `"Unknown"` and derives the add year
  and month. It puts the leading number of `duration` into
  `Movie_duration` for `"Movie"` rows and into `Series_duration` for
  `"TV Show"` rows. It maps the rating code to an audience bucket
  (`Content_For`) through a fixed 14-code table.
- **The unnester** (`unnest_col`). It stringifies a multi-valued column,
  splits it on `", "` and explodes it into `(original_index, value)`
  entries.
- **The report aggregations.** These are the top-N value counts, with
  the `"Unknown"` filter applied before or after `head(n)`, and the
  genre-by-country heat map built from an index join of two long tables.
  They also include the strategy-simulator filter with its saturation
  tiers, and the grouped counts that drop rows with a missing key.

Everything is a pure function over immutable datatypes. Rows are
`Catalog.RawTitle` and `Catalog.Title`, with `Option` cells for pandas
NaN. Strings are `seq<char>`. The row index that pandas assigns on
`read_csv` is the row's position in the sequence.

Modules, one per component:

- `Base` (base.dfy): `Option`, `Result`, and the order-preserving
  `Filter` (boolean-mask selection).
- `Text` (text.dfy): `str.split(", ")` / `", ".join`,
  `str.split(" ")[0]`, decimal numerals, and a literal substring test.
- `Catalog` (catalog.dfy): the loader.
- `Unnest` (unnest.dfy): the unnester.
- `Counts` (counts.dfy): value counts, top-N and group-by counts.
- `CrossTab` (crosstab.dfy): the index join and the heat map.
- `Simulator` (simulator.dfy): the strategy simulator and market tiers.
- `Reports` (reports.dfy): the report tabs' concrete uses of the above.

Three behaviours of the code are worth stating plainly:

- On a "Movie" or "TV Show" row, a duration whose leading token is not
  a number makes pandas' `astype(float)` raise, so the whole load fails:
  `Catalog.Load` returns `Failure(DurationNotNumeric)`. Rows of any
  other type are not parsed and load whatever their duration.
- A row can have neither duration: its duration cell is missing (or its
  leading token is "nan"), or its type is neither "Movie" nor "TV Show".
  A row never has both.
- A simulation with zero matches takes the `len(sim_data) > 0` else
  branch ("no existing content"); the saturation tiers apply only to one
  or more matches.

## Model

| member | source | states |
|---|---|---|
| Catalog.Fill | netflix_app.py:289-291 | a present cell is kept as it is; only a missing cell becomes "Unknown" |
| Catalog.Stringify | netflix_app.py:301-302 | a present cell is kept as its text; the result is "nan" exactly when the cell is missing or holds "nan" itself |
| Catalog.AudienceOf | netflix_app.py:306-312 | a rating gets a bucket exactly when it is present and one of the table's codes, and the bucket is one that lists the code; missing or unknown codes get none |
| Catalog.AudienceTable | netflix_app.py:306-312 | for every code and bucket, the lookup yields that bucket if and only if the code is listed under it (Adults: TV-MA R NC-17 UR NR; Teens: TV-14 PG-13; Older Kids: TV-PG TV-Y7 TV-Y7-FV PG; Kids: TV-Y TV-G G) |
| Catalog.RatingTableCodes | netflix_app.py:306-311 | the table's codes are exactly the union of the four buckets' listed codes |
| Catalog.ParseDuration | netflix_app.py:301-302 | reading the leading token fails exactly when it is neither "nan" nor a numeral; a missing cell (stringified "nan") gives no value; a number comes only from a present cell whose token is a numeral, and it is that numeral's decimal value |
| Catalog.DurationRoundTrip | netflix_app.py:301-302 | a duration written "<n> <unit>" ("90 min", "3 Seasons") reads back as n |
| Catalog.NormalizeRow | netflix_app.py:287-312 | a row fails exactly when it is a Movie or TV Show row with an unreadable duration; otherwise the output keeps every untouched column, fills only missing people/country cells, has an add year and month exactly when there is an add date, carries each duration only on its own type with the leading number, has no duration at all unless the cell is present with a numeral as leading token, and takes its bucket from the table |
| Catalog.NormalizeAll | netflix_app.py:287-312 | the load fails if and only if some "Movie" or "TV Show" row has an unreadable duration; otherwise the catalog has one row per input row, each related to its input as above |
| Catalog.Load | netflix_app.py:277-314 | a missing file gives FileNotFound; otherwise the outcome is as for NormalizeAll |
| Catalog.DurationColumnsExclusive | netflix_app.py:301-302 | in every loaded catalog no row has both durations, and a present duration matches the row's type |
| Catalog.MissingDurationIsAbsent | netflix_app.py:301-302 | a missing duration cell, or one whose leading token is "nan", leaves both duration columns empty |
| Text.Split | netflix_app.py:320 | splitting yields at least one piece, the first piece is a prefix of the text, and no piece contains ", " |
| Text.JoinSplit | netflix_app.py:320 | joining the pieces of a split with ", " gives back the text |
| Text.SplitJoin | netflix_app.py:320 | splitting the join of one or more separator-free pieces gives back exactly those pieces |
| Text.FirstToken | netflix_app.py:301-302 | the token is a prefix of the text, holds no space, and is followed by a space or ends the text |
| Text.DigitsValueDecimal | netflix_app.py:301-302 | reading the decimal numeral of n gives back n |
| Text.Contains | netflix_app.py:1160 | the test holds if and only if the needle occurs at some position of the text |
| Unnest.Explode | netflix_app.py:320 | every row yields at least one entry, every entry points at an existing row, and entries appear in row order |
| Unnest.ExplodePieces | netflix_app.py:320 | the values of the entries pointing at row i are exactly the split pieces of row i, in order and with repeats; rows beyond the table have none |
| Unnest.UnnestColumn | netflix_app.py:319-325 | the long table of a column has at least one entry per title, only valid back-references, and non-decreasing original indices |
| Unnest.UnnestRoundTrip | netflix_app.py:319-325 | each title has at least one entry, and joining its entries' values with ", " gives back the title's stringified cell |
| Unnest.UnknownSingleEntry | netflix_app.py:319-325 | a cell holding "Unknown" yields exactly one entry, "Unknown" |
| Reports.MissingCellUnnestsToUnknown | netflix_app.py:289-291 | a title whose director, cast or country cell was empty in the file has exactly one entry, "Unknown", in that column's long table |
| Counts.Distinct | netflix_app.py:731 | the distinct values are exactly the values of the input, each listed once |
| Counts.Tally | netflix_app.py:731 | every distinct value is listed once with its exact number of occurrences |
| Counts.SelectTop | netflix_app.py:731 | selection keeps min(n, size) candidates, largest first, with distinct labels, and no candidate left out has a larger count than one kept |
| Counts.TopN | netflix_app.py:1109-1110 | `value_counts().head(n)` lists min(n, number of distinct values) values, each once with its exact count, counts non-increasing, and every value left out occurs no more often than any value listed |
| Counts.Known | netflix_app.py:730 | the values kept are exactly those other than "Unknown", each with its original multiplicity |
| Counts.TopKnown | netflix_app.py:730-731 | with "Unknown" removed before counting, the ranking has min(n, number of distinct known values) lines, never lists "Unknown", lists each value at most once with its exact count, is non-increasing, and no known value left out is more frequent than one listed |
| Counts.DropUnknown | netflix_app.py:1367 | dropping the sentinel's line keeps, in order, exactly the lines for other values |
| Counts.TopThenDropUnknown | netflix_app.py:1365-1367 | with "Unknown" dropped after `head(n)`, the result is, in rank order, exactly the lines of the top n other than "Unknown": every such line is kept, none for "Unknown" remains, at most n lines, exact counts |
| Counts.SubsequenceNonIncreasing | netflix_app.py:1367 | deleting lines from a ranking leaves it ranked |
| Counts.DropAfterHeadFallsShort | netflix_app.py:1365-1367 | if "Unknown" ranks in the top n and there are at least n known values, dropping after `head(n)` leaves one line fewer than the top n, and fewer than the n lines that filtering first gives |
| Counts.GroupCount | netflix_app.py:781-782 | a key appears exactly when some row has it present; its count is the number of rows with that key and is never zero |
| Reports.YearTypeCounts | netflix_app.py:781-782 | (year, type) is counted exactly when some title with an add year has it; the count is the number of such titles |
| Reports.AudienceTypeCounts | netflix_app.py:1015 | (bucket, type) is counted exactly when some title with a bucket has it; the count is the number of such titles |
| Reports.TopProducingCountries | netflix_app.py:730-731 | the country ranking has min(15, distinct known countries) lines, no "Unknown", each country at most once with its exact count, non-increasing, and no known country left out is more frequent than one listed |
| Reports.TopGenres | netflix_app.py:846 | the genre ranking has min(15, distinct genres) lines, each genre at most once with its exact count, non-increasing, and no genre left out is more frequent than one listed |
| Reports.TopProductionCountries | netflix_app.py:1365-1367 | at most 10 lines: exactly the lines of the top 10 other than "Unknown", in rank order, with exact counts |
| CrossTab.MergeIsPerTitleProduct | netflix_app.py:1107 | joining two long tables of one catalog on the original index pairs, title by title, each of its values in one column with each of its values in the other |
| CrossTab.MergeMembers | netflix_app.py:1107 | `MergeOnIndex`, the inner join on the original index, holds a (genre, country) pair exactly when some genre entry and some country entry of the same original row carry those values |
| CrossTab.PiecesMembers | netflix_app.py:1107 | a value is among row i's entries of a long table exactly when some entry pointing at row i holds it |
| CrossTab.ProductCount | netflix_app.py:1107 | a pair occurs in a product as many times as its first half occurs on the left times its second half on the right |
| CrossTab.TitlePairsCount | netflix_app.py:1107 | a pair occurs in the per-title pairing as often as the reference cell count says: the sum over titles of the product of the two values' occurrences |
| CrossTab.Crosstab | netflix_app.py:1118 | rows are exactly the first values present, columns exactly the second values present, there is a cell for every row and column, and each cell is that pair's number of occurrences |
| CrossTab.KeptPairs | netflix_app.py:1112-1116 | the kept pairs are exactly the joined pairs with a top-10 genre and a top-10 country other than "Unknown", with their multiplicities |
| CrossTab.Top10 | netflix_app.py:1109-1110 | exactly min(10, number of distinct values) distinct values of the long table, in non-increasing order of frequency, and no value left out is more frequent than one listed |
| CrossTab.BuildHeatmap | netflix_app.py:1107-1118 | the rows are exactly the genres, and the columns exactly the countries, of joined pairs with a top-10 genre and a top-10 country other than "Unknown"; the grid is full, each cell counts the joined pairs, and each kept joined pair has a positive cell |
| CrossTab.HeatmapCellPerTitle | netflix_app.py:1107-1118 | each cell of the catalog's heat map equals the sum over titles of (occurrences of the genre) times (occurrences of the country) |
| Base.Filter | netflix_app.py:1164 | the selection keeps exactly the elements that pass the mask, with their multiplicities, in their original order |
| Simulator.Simulate | netflix_app.py:1160-1164 | the selection is exactly the rows whose genre list contains the genre, whose type equals the chosen type and whose bucket equals the chosen bucket, in catalog order with multiplicities |
| Simulator.Matches | netflix_app.py:1160-1162 | a title matches exactly when its genre list is present and contains the genre text at some position, its type is the chosen type, and its bucket is the chosen bucket |
| Simulator.NoBucketNeverMatches | netflix_app.py:1162-1163 | a title without an audience bucket is never selected |
| Simulator.GenreMatchesInsideLongerName | netflix_app.py:1160 | the genre test is a substring test: "Comedies" matches a genre list holding only "TV Comedies" |
| Simulator.MarketStatus | netflix_app.py:1168-1211 | 0 titles means no existing content, 1-49 Blue Ocean, 50-199 Competitive, 200 or more Saturated, each range exactly |
| Simulator.MarketStatusMonotone | netflix_app.py:1185-1194 | more matching titles never give a less crowded status |
| Simulator.Report | netflix_app.py:1168-1211 | the report is the saturation tier of the number of matching titles, so "no existing content" exactly when no title matches |
| Simulator.SimulateCount | netflix_app.py:1164-1185 | the selection has exactly one row per matching catalog row |
| Simulator.AbsentGenre | netflix_app.py:1208-1211 | a genre no title lists gives an empty selection and the no-existing-content branch, not an error |

## Left out

- Catalog.Fill: the model assumes the chained in-place
  `df[col].fillna("Unknown", inplace=True)` calls (lines 289-291) update
  the frame, as they do in pandas 2.x. Under copy-on-write (the pandas
  3.0 default) they would leave the frame unchanged, the cells would
  stringify to "nan", and the "Unknown" filters at lines 730, 1115 and
  1367 would match nothing. The source pins no pandas version, and line
  39 silences the warning pandas gives about this.

- Presentation is not modelled: page setup, CSS and HTML, Plotly and
  Matplotlib charts, metric cards, tabs, select boxes, narrative text.
- Logging, the log tab and the download button are not modelled.
- `st.cache_data` memoisation is not modelled. Each function is pure,
  so caching does not change its results.
- Reading the CSV file is not modelled. `Catalog.Load` takes the parsed
  rows, or None when the file is absent.
- Date parsing (`pd.to_datetime(..., errors='coerce')`) is not
  modelled. A raw row carries its add date already parsed, or None when
  it is missing or unparseable. The year and month name are derived
  from that value.
- Catalog.ParseDuration: only decimal digit strings and the literal
  "nan" are read. Other tokens that Python's `float` accepts ("1.5",
  "+3", "1e3", "inf", "NaN") are treated as unreadable. Durations are
  naturals, not floats. The dataset's durations are whole numbers.
- Catalog.NormalizeAll: the error carries no detail. pandas reports the
  first bad Movie token before any bad TV Show token. The model only
  says that the load fails.
- Catalog.AudienceTable: equality with the bucket listing is proved,
  but the cardinality 14 is not proved separately. The table's key set
  is proved equal to the union of the four listed buckets.
- Counts.TopN: no order is stated among equal counts, and when a tie
  straddles the cut-off the contract does not say which of the tied
  values is listed. pandas does not specify either.
- Simulator.Matches: `str.contains` is a regular-expression test by
  default. It is modelled as a literal substring test. This is the same
  for genre names without regex metacharacters.
- The `type` column is modelled as always present. Only its comparison
  with "Movie" and "TV Show" matters.
- Float statistics are not modelled: means, medians, modes,
  percentages, memory usage, completeness ratios, and the simulator's
  average duration, dominant market and recent-examples table.
- CrossTab.Crosstab: `pd.crosstab` sorts its labels. The model gives
  rows and columns as sets, so no label order is stated.
- Other value counts are not modelled separately. These are the type
  KPI counts (lines 453, 463), the audience, rating and month counts
  (lines 803, 973, 994, 1298) and the per-country type counts
  (lines 756-757). They are the same `Counts.Tally` / `Counts.TopN`
  applied to another column.

=== FILE: base.dfy ===
/** Small building blocks shared by the catalog model: optional values,
    results with an error, and an order-preserving filter over sequences. */
module Base {

  /** A value that may be missing (a pandas NaN cell). */
  datatype Option<+T> = None | Some(value: T) {
    /** The value, or `default` when it is missing. */
    function GetOr(default: T): T {
      match this
      case Some(v) => v
      case None => default
    }
  }

  /** The outcome of an operation that can fail. */
  datatype Result<+T, +E> = Success(value: T) | Failure(error: E)

  /** `a` can be obtained from `b` by deleting elements: the order of the
      kept elements is the order they have in `b`. */
  predicate IsSubsequence<T(==)>(a: seq<T>, b: seq<T>)
    decreases |b|
  {
    |a| == 0
    || (|b| > 0 && ((a[0] == b[0] && IsSubsequence(a[1..], b[1..])) || IsSubsequence(a, b[1..])))
  }

  /** Every element of a subsequence is an element of the whole. */
  lemma {:induction false} SubsequenceMembers<T>(a: seq<T>, b: seq<T>)
    requires IsSubsequence(a, b)
    ensures forall k :: 0 <= k < |a| ==> a[k] in b
    decreases |b|
  {
    if |a| > 0 {
      if a[0] == b[0] && IsSubsequence(a[1..], b[1..]) {
        SubsequenceMembers(a[1..], b[1..]);
        assert forall k :: 1 <= k < |a| ==> a[k] == a[1..][k - 1];
      } else {
        SubsequenceMembers(a, b[1..]);
      }
    }
  }

  /** The elements of `s` that satisfy `p`, in their original order and
      with their multiplicities (a boolean-mask selection). */
  function Filter<T(!new)>(s: seq<T>, p: T -> bool): (r: seq<T>)
    ensures |r| <= |s|
    ensures forall x :: x in r ==> x in s && p(x)
    ensures forall i :: 0 <= i < |s| && p(s[i]) ==> s[i] in r
    ensures forall x :: multiset(r)[x] == if p(x) then multiset(s)[x] else 0
    ensures IsSubsequence(r, s)
    decreases |s|
  {
    if |s| == 0 then []
    else
      var rest := Filter(s[1..], p);
      assert s == [s[0]] + s[1..];
      assert forall i :: 1 <= i < |s| ==> s[i] == s[1..][i - 1];
      if p(s[0]) then [s[0]] + rest else rest
  }

  /** A mask that rejects exactly one element keeps all the others. */
  lemma {:induction false} FilterDropsOne<T(!new)>(s: seq<T>, p: T -> bool, k: nat)
    requires k < |s| && !p(s[k])
    requires forall j :: 0 <= j < |s| && j != k ==> p(s[j])
    ensures |Filter(s, p)| == |s| - 1
    decreases |s|
  {
    if k == 0 {
      FilterKeepsAll(s[1..], p);
    } else {
      FilterDropsOne(s[1..], p, k - 1);
    }
  }

  /** A mask that accepts every element keeps the sequence whole. */
  lemma {:induction false} FilterKeepsAll<T(!new)>(s: seq<T>, p: T -> bool)
    requires forall j :: 0 <= j < |s| ==> p(s[j])
    ensures Filter(s, p) == s
    decreases |s|
  {
    if |s| > 0 {
      FilterKeepsAll(s[1..], p);
      assert [s[0]] + s[1..] == s;
    }
  }
}

=== FILE: catalog.dfy ===
/** The loader/normaliser: turns raw catalog rows into the canonical
    catalog, filling missing people/country fields with the sentinel
    "Unknown", deriving the add year and month name, splitting the
    duration into a movie column and a series column, and mapping the
    rating code to an audience bucket. */
module Catalog {
  import opened Base
  import Text

  /** The placeholder for a missing director, cast or country. */
  const Unknown: string := "Unknown"

  /** The sentinel is a single list value: it holds no ", ". */
  lemma UnknownHasNoSep()
    ensures Text.NoSep(Unknown)
  {
    forall k | 0 <= k < |Unknown| - 1 ensures Unknown[k] != ',' {
    }
  }

  /** The two values of the `type` column the dashboard distinguishes. */
  const MovieKind: string := "Movie"
  const ShowKind: string := "TV Show"

  type Month = m: int | 1 <= m <= 12 witness 1

  /** An already parsed add date; parsing itself is not modelled. */
  datatype Date = Date(year: int, month: Month)

  /** One row of the file as read: cells that may be empty are optional. */
  datatype RawTitle = RawTitle(
    showId: string,
    kind: string,
    title: string,
    director: Option<string>,
    cast: Option<string>,
    country: Option<string>,
    dateAdded: Option<Date>,
    releaseYear: int,
    rating: Option<string>,
    duration: Option<string>,
    listedIn: Option<string>,
    description: Option<string>)

  /** The coarse audience a rating code belongs to. */
  datatype Audience = Adults | Teens | OlderKids | Kids {
    /** The label the dashboard shows for the bucket. */
    function Label(): string {
      match this
      case Adults => "Adults"
      case Teens => "Teens"
      case OlderKids => "Older Kids"
      case Kids => "Kids"
    }
  }

  /** One row of the normalised catalog: the raw columns (people and
      country filled in) plus the derived columns. */
  datatype Title = Title(
    showId: string,
    kind: string,
    title: string,
    director: string,
    cast: string,
    country: string,
    dateAdded: Option<Date>,
    releaseYear: int,
    rating: Option<string>,
    duration: Option<string>,
    listedIn: Option<string>,
    description: Option<string>,
    yearAdded: Option<int>,
    monthAdded: Option<string>,
    movieDuration: Option<nat>,
    seriesDuration: Option<nat>,
    contentFor: Option<Audience>)

  datatype LoadError =
    | FileNotFound
      /** A Movie or TV Show row whose leading duration token is not a number. */
    | DurationNotNumeric

  /** `fillna(Unknown)` on one cell. */
  function Fill(cell: Option<string>): (s: string)
    ensures cell.Some? ==> s == cell.value
    ensures cell.None? ==> s == Unknown
  {
    cell.GetOr(Unknown)
  }

  /** `astype(str)` on a text cell: a missing cell becomes "nan". */
  function Stringify(cell: Option<string>): (s: string)
    ensures cell.Some? ==> s == cell.value
    ensures s == "nan" <==> cell == None || cell == Some("nan")
  {
    match cell
    case Some(s) => s
    case None => "nan"
  }

  /** English month names, as `month_name()` gives them. */
  function MonthName(m: Month): string {
    ["January", "February", "March", "April", "May", "June", "July",
     "August", "September", "October", "November", "December"][m - 1]
  }

  /** The fixed rating-code table of the loader. */
  const RatingTable: map<string, Audience> := map[
    "TV-MA" := Adults, "R" := Adults, "NC-17" := Adults, "UR" := Adults, "NR" := Adults,
    "TV-14" := Teens, "PG-13" := Teens,
    "TV-PG" := OlderKids, "TV-Y7" := OlderKids, "TV-Y7-FV" := OlderKids, "PG" := OlderKids,
    "TV-Y" := Kids, "TV-G" := Kids, "G" := Kids]

  /** The rating codes of each bucket, listed bucket by bucket. */
  function BucketCodes(a: Audience): set<string> {
    match a
    case Adults => {"TV-MA", "R", "NC-17", "UR", "NR"}
    case Teens => {"TV-14", "PG-13"}
    case OlderKids => {"TV-PG", "TV-Y7", "TV-Y7-FV", "PG"}
    case Kids => {"TV-Y", "TV-G", "G"}
  }

  /** `rating.map(RatingTable)`: an exact lookup; an unknown or missing
      code has no bucket. */
  function AudienceOf(rating: Option<string>): (a: Option<Audience>)
    ensures a.Some? <==> rating.Some? && rating.value in RatingTable
    ensures a.Some? ==> rating.value in BucketCodes(a.value)
  {
    if rating.Some? && rating.value in RatingTable then Some(RatingTable[rating.value]) else None
  }

  /** The table and the bucket-by-bucket listing agree: a code maps to a
      bucket exactly when it is listed under it. */
  lemma AudienceTable(code: string, a: Audience)
    ensures AudienceOf(Some(code)) == Some(a) <==> code in BucketCodes(a)
  {
    match a
    case Adults =>
    case Teens =>
    case OlderKids =>
    case Kids =>
  }

  /** The table's codes are exactly the four buckets' codes. */
  lemma RatingTableCodes()
    ensures RatingTable.Keys == BucketCodes(Adults) + BucketCodes(Teens)
      + BucketCodes(OlderKids) + BucketCodes(Kids)
  {
  }

  /** The value `astype(float)` gives a leading duration token: "nan" is a
      missing value, a numeral is a number, anything else raises. */
  function ParseDuration(cell: Option<string>): (r: Result<Option<nat>, LoadError>)
    ensures r.Failure? <==> !DurationReadable(cell)
    ensures r == Success(None) <==> Text.FirstToken(Stringify(cell)) == "nan"
    ensures r.Success? && r.value.Some? ==> cell.Some? && Text.IsNumeral(Text.FirstToken(cell.value))
    ensures cell.Some? && Text.IsNumeral(Text.FirstToken(cell.value)) ==>
      r == Success(Some(Text.DigitsValue(Text.FirstToken(cell.value))))
  {
    var tok := Text.FirstToken(Stringify(cell));
    if tok == "nan" then Success(None)
    else if Text.IsNumeral(tok) then Success(Some(Text.DigitsValue(tok)))
    else Failure(DurationNotNumeric)
  }

  /** The leading token of the stringified duration is "nan" or a numeral. */
  predicate DurationReadable(cell: Option<string>) {
    var tok := Text.FirstToken(Stringify(cell));
    tok == "nan" || Text.IsNumeral(tok)
  }

  /** A duration written as "<number> <unit>" ("90 min", "3 Seasons")
      reads back as that number. */
  lemma DurationRoundTrip(n: nat, unit: string)
    ensures ParseDuration(Some(Text.Decimal(n) + " " + unit)) == Success(Some(n))
  {
    var d := Text.Decimal(n);
    assert ' ' !in d by {
      forall i | 0 <= i < |d| ensures d[i] != ' ' {
        assert Text.IsDigit(d[i]);
      }
    }
    Text.FirstTokenBeforeSpace(d, unit);
    assert d != "nan" by {
      assert Text.IsDigit(d[0]);
    }
    Text.DigitsValueDecimal(n);
  }

  /** What one normalised row says about the raw row it came from, column
      by column. */
  predicate Describes(raw: RawTitle, t: Title) {
    // Columns the loader does not touch.
    && t.showId == raw.showId && t.kind == raw.kind && t.title == raw.title
    && t.dateAdded == raw.dateAdded && t.releaseYear == raw.releaseYear
    && t.rating == raw.rating && t.duration == raw.duration
    && t.listedIn == raw.listedIn && t.description == raw.description
    // Only missing people and country cells are replaced by the sentinel.
    && (raw.director.Some? ==> t.director == raw.director.value)
    && (raw.director.None? ==> t.director == Unknown)
    && (raw.cast.Some? ==> t.cast == raw.cast.value)
    && (raw.cast.None? ==> t.cast == Unknown)
    && (raw.country.Some? ==> t.country == raw.country.value)
    && (raw.country.None? ==> t.country == Unknown)
    // The add year and month exist exactly when the add date does.
    && (t.yearAdded.Some? <==> raw.dateAdded.Some?)
    && (t.monthAdded.Some? <==> raw.dateAdded.Some?)
    && (raw.dateAdded.Some? ==>
          t.yearAdded.value == raw.dateAdded.value.year
          && t.monthAdded.value == MonthName(raw.dateAdded.value.month))
    // Each duration column belongs to one type, and holds the leading number;
    // a missing cell or a "nan" token leaves both columns empty.
    && (t.movieDuration.Some? ==> raw.kind == MovieKind)
    && (t.seriesDuration.Some? ==> raw.kind == ShowKind)
    && (t.movieDuration.Some? || t.seriesDuration.Some? ==>
          raw.duration.Some? && Text.IsNumeral(Text.FirstToken(raw.duration.value)))
    && ((raw.kind == MovieKind || raw.kind == ShowKind) && raw.duration.Some?
        && Text.IsNumeral(Text.FirstToken(raw.duration.value)) ==>
          var v := Text.DigitsValue(Text.FirstToken(raw.duration.value));
          if raw.kind == MovieKind then t.movieDuration == Some(v) else t.seriesDuration == Some(v))
    // The audience bucket comes from the rating table.
    && (t.contentFor.Some? <==> raw.rating.Some? && raw.rating.value in RatingTable)
    && (t.contentFor.Some? ==> raw.rating.value in BucketCodes(t.contentFor.value))
  }

  /** A Movie or TV Show row whose duration the loader cannot read. */
  predicate BadDuration(raw: RawTitle) {
    (raw.kind == MovieKind || raw.kind == ShowKind) && !DurationReadable(raw.duration)
  }

  /** The loader's work on one row. */
  function NormalizeRow(raw: RawTitle): (r: Result<Title, LoadError>)
    ensures r.Failure? <==> BadDuration(raw)
    ensures r.Failure? ==> r.error == DurationNotNumeric
    ensures r.Success? ==> Describes(raw, r.value)
  {
    var movie := if raw.kind == MovieKind then ParseDuration(raw.duration) else Success(None);
    var series := if raw.kind == ShowKind then ParseDuration(raw.duration) else Success(None);
    if movie.Failure? || series.Failure? then Failure(DurationNotNumeric)
    else
      Success(Title(
        raw.showId, raw.kind, raw.title,
        Fill(raw.director), Fill(raw.cast), Fill(raw.country),
        raw.dateAdded, raw.releaseYear, raw.rating, raw.duration, raw.listedIn, raw.description,
        if raw.dateAdded.Some? then Some(raw.dateAdded.value.year) else None,
        if raw.dateAdded.Some? then Some(MonthName(raw.dateAdded.value.month)) else None,
        movie.value, series.value,
        AudienceOf(raw.rating)))
  }

  /** Normalises every row; the first unreadable duration fails the load. */
  function NormalizeAll(rows: seq<RawTitle>): (r: Result<seq<Title>, LoadError>)
    ensures r.Failure? <==> exists i :: 0 <= i < |rows| && BadDuration(rows[i])
    ensures r.Failure? ==> r.error == DurationNotNumeric
    ensures r.Success? ==> |r.value| == |rows|
    ensures r.Success? ==> forall i :: 0 <= i < |rows| ==> Describes(rows[i], r.value[i])
    decreases |rows|
  {
    if |rows| == 0 then Success([])
    else
      var head := NormalizeRow(rows[0]);
      var tail := NormalizeAll(rows[1..]);
      assert forall i :: 1 <= i < |rows| ==> rows[i] == rows[1..][i - 1];
      if head.Failure? then Failure(DurationNotNumeric)
      else if tail.Failure? then
        assert exists i :: 0 <= i < |rows[1..]| && BadDuration(rows[1..][i]);
        Failure(DurationNotNumeric)
      else Success([head.value] + tail.value)
  }

  /** `load_data`: `file` is the parsed file, or None when it is absent. */
  function Load(file: Option<seq<RawTitle>>): (r: Result<seq<Title>, LoadError>)
    ensures file.None? ==> r == Failure(FileNotFound)
    ensures file.Some? ==> (r.Failure? <==> exists i :: 0 <= i < |file.value| && BadDuration(file.value[i]))
    ensures file.Some? && r.Failure? ==> r.error == DurationNotNumeric
    ensures r.Success? ==> |r.value| == |file.value|
    ensures r.Success? ==> forall i :: 0 <= i < |file.value| ==> Describes(file.value[i], r.value[i])
  {
    match file
    case None => Failure(FileNotFound)
    case Some(rows) => NormalizeAll(rows)
  }

  /** The catalog invariant for durations: no row has both, and a row's
      duration column matches its type. */
  lemma DurationColumnsExclusive(file: Option<seq<RawTitle>>, i: nat)
    requires Load(file).Success? && i < |Load(file).value|
    ensures var t := Load(file).value[i];
      && !(t.movieDuration.Some? && t.seriesDuration.Some?)
      && (t.movieDuration.Some? ==> t.kind == MovieKind)
      && (t.seriesDuration.Some? ==> t.kind == ShowKind)
  {
  }

  /** A missing duration cell, or one whose leading token is "nan", gives
      no duration in either column. */
  lemma MissingDurationIsAbsent(file: Option<seq<RawTitle>>, i: nat)
    requires Load(file).Success? && i < |Load(file).value|
    requires Text.FirstToken(Stringify(file.value[i].duration)) == "nan"
    ensures Load(file).value[i].movieDuration.None?
    ensures Load(file).value[i].seriesDuration.None?
  {
    var raw := file.value[i];
    assert Describes(raw, Load(file).value[i]);
    if raw.duration.Some? {
      assert !Text.IsNumeral("nan") by {
        assert !Text.IsDigit("nan"[0]);
      }
    }
  }
}

=== FILE: counts.dfy ===
/** The counting helpers the report tabs use: `value_counts().head(n)`
    over one column (optionally without the "Unknown" sentinel) and
    `groupby(...).size()` over key columns, which drops rows whose key is
    missing. */
module Counts {
  import opened Base
  import Catalog

  /** One line of a value count: a value and how often it occurs. */
  type Count = (string, nat)

  function Min(a: nat, b: nat): nat {
    if a <= b then a else b
  }

  /** The values of a value count, in rank order. */
  function Labels(r: seq<Count>): (ls: seq<string>)
    ensures |ls| == |r|
    ensures forall k :: 0 <= k < |r| ==> ls[k] == r[k].0
  {
    seq(|r|, k requires 0 <= k < |r| => r[k].0)
  }

  /** No value is listed twice. */
  predicate DistinctLabels(r: seq<Count>) {
    forall j, k :: 0 <= j < k < |r| ==> r[j].0 != r[k].0
  }

  /** Counts never increase down the ranking. */
  predicate NonIncreasing(r: seq<Count>) {
    forall j, k :: 0 <= j < k < |r| ==> r[j].1 >= r[k].1
  }

  /** The distinct values of `s`, each once. */
  function Distinct(s: seq<string>): (d: seq<string>)
    ensures forall x :: x in d <==> x in s
    ensures forall j, k :: 0 <= j < k < |d| ==> d[j] != d[k]
    decreases |s|
  {
    if |s| == 0 then []
    else
      var n := |s| - 1;
      var front := Distinct(s[..n]);
      assert s == s[..n] + [s[n]];
      if s[n] in front then front else front + [s[n]]
  }

  /** Every distinct value with its number of occurrences. */
  function Tally(values: seq<string>): (r: seq<Count>)
    ensures |r| == |Distinct(values)|
    ensures DistinctLabels(r)
    ensures forall k :: 0 <= k < |r| ==> r[k].0 in values && r[k].1 == multiset(values)[r[k].0]
    ensures forall v :: v in values ==> v in Labels(r)
  {
    var d := Distinct(values);
    var r := seq(|d|, k requires 0 <= k < |d| => (d[k], multiset(values)[d[k]]));
    assert forall v :: v in values ==> v in Labels(r) by {
      forall v | v in values ensures v in Labels(r) {
        var k :| 0 <= k < |d| && d[k] == v;
        assert Labels(r)[k] == v;
      }
    }
    r
  }

  /** The position of a largest count (the first such). */
  function MaxIndex(c: seq<Count>): (m: nat)
    requires |c| > 0
    ensures m < |c|
    ensures forall k :: 0 <= k < |c| ==> c[k].1 <= c[m].1
    decreases |c|
  {
    if |c| == 1 then 0
    else
      var m := MaxIndex(c[..|c| - 1]);
      if c[|c| - 1].1 > c[m].1 then |c| - 1 else m
  }

  /** `c` without its element at position `m`. */
  function RemoveAt(c: seq<Count>, m: nat): (r: seq<Count>)
    requires m < |c|
    ensures |r| == |c| - 1
    ensures forall k :: 0 <= k < |r| ==> r[k] == if k < m then c[k] else c[k + 1]
  {
    c[..m] + c[m + 1..]
  }

  /** The `n` entries with the largest counts, largest first, by repeated
      selection of a maximum. Which of several equal counts goes first is
      not part of the contract. */
  function SelectTop(c: seq<Count>, n: nat): (r: seq<Count>)
    requires DistinctLabels(c)
    ensures |r| == Min(n, |c|)
    ensures forall k :: 0 <= k < |r| ==> r[k] in c
    ensures DistinctLabels(r)
    ensures NonIncreasing(r)
    ensures forall j :: 0 <= j < |c| && c[j] !in r ==> forall k :: 0 <= k < |r| ==> c[j].1 <= r[k].1
    decreases n
  {
    if n == 0 || |c| == 0 then []
    else
      var m := MaxIndex(c);
      var rest := RemoveAt(c, m);
      var tail := SelectTop(rest, n - 1);
      SelectTopStep(c, m, tail);
      [c[m]] + tail
  }

  /** A maximum of `c` followed by a ranking of the rest is a ranking of `c`. */
  lemma SelectTopStep(c: seq<Count>, m: nat, tail: seq<Count>)
    requires DistinctLabels(c) && m < |c|
    requires forall k :: 0 <= k < |c| ==> c[k].1 <= c[m].1
    requires forall k :: 0 <= k < |tail| ==> tail[k] in RemoveAt(c, m)
    requires DistinctLabels(tail) && NonIncreasing(tail)
    requires forall j :: 0 <= j < |c| - 1 && RemoveAt(c, m)[j] !in tail ==>
      forall k :: 0 <= k < |tail| ==> RemoveAt(c, m)[j].1 <= tail[k].1
    ensures forall k :: 0 <= k < |tail| + 1 ==> ([c[m]] + tail)[k] in c
    ensures DistinctLabels([c[m]] + tail)
    ensures NonIncreasing([c[m]] + tail)
    ensures forall j :: 0 <= j < |c| && c[j] !in [c[m]] + tail ==>
      forall k :: 0 <= k < |tail| + 1 ==> c[j].1 <= ([c[m]] + tail)[k].1
  {
    var rest := RemoveAt(c, m);
    var r := [c[m]] + tail;
    RemoveAtDistinct(c, m);
    forall k | 0 <= k < |r| ensures r[k] in c {
      if k > 0 {
        assert r[k] == tail[k - 1];
      }
    }
    forall j, k | 0 <= j < k < |r| ensures r[j].0 != r[k].0 && r[j].1 >= r[k].1 {
      assert r[k] == tail[k - 1] && r[k] in rest;
      if j > 0 {
        assert r[j] == tail[j - 1];
      }
    }
    forall j | 0 <= j < |c| && c[j] !in r
      ensures forall k :: 0 <= k < |r| ==> c[j].1 <= r[k].1
    {
      assert j != m;
      var i := if j < m then j else j - 1;
      assert rest[i] == c[j];
      forall k | 0 <= k < |r| ensures c[j].1 <= r[k].1 {
        if k > 0 {
          assert r[k] == tail[k - 1];
        }
      }
    }
  }

  /** Removing one entry keeps the labels distinct, removes exactly that
      entry's label and keeps every other entry. */
  lemma RemoveAtDistinct(c: seq<Count>, m: nat)
    requires m < |c| && DistinctLabels(c)
    ensures DistinctLabels(RemoveAt(c, m))
    ensures forall x :: x in RemoveAt(c, m) ==> x in c && x.0 != c[m].0
    ensures forall j :: 0 <= j < |c| && j != m ==> c[j] in RemoveAt(c, m)
  {
    var rest := RemoveAt(c, m);
    forall j, k | 0 <= j < k < |rest| ensures rest[j].0 != rest[k].0 {
      var j' := if j < m then j else j + 1;
      var k' := if k < m then k else k + 1;
      assert rest[j] == c[j'] && rest[k] == c[k'];
    }
    forall x | x in rest ensures x in c && x.0 != c[m].0 {
      var k :| 0 <= k < |rest| && rest[k] == x;
      if k < m {
        assert x == c[k];
      } else {
        assert x == c[k + 1];
      }
    }
    forall j | 0 <= j < |c| && j != m ensures c[j] in rest {
      if j < m {
        assert rest[j] == c[j];
      } else {
        assert rest[j - 1] == c[j];
      }
    }
  }

  /** `value_counts().head(n)`: the `n` most frequent values with their
      exact counts, largest first; a value left out is no more frequent
      than any value listed. */
  function TopN(values: seq<string>, n: nat): (r: seq<Count>)
    ensures |r| == Min(n, |Distinct(values)|)
    ensures DistinctLabels(r)
    ensures NonIncreasing(r)
    ensures forall k :: 0 <= k < |r| ==> r[k].0 in values && r[k].1 == multiset(values)[r[k].0]
    ensures forall v :: v in values && v !in Labels(r) ==>
      forall k :: 0 <= k < |r| ==> multiset(values)[v] <= r[k].1
  {
    var t := Tally(values);
    var r := SelectTop(t, n);
    TallyLeftOut(values, t, r);
    r
  }

  /** A value left out of a selection from its tally is no more frequent
      than any value selected. */
  lemma TallyLeftOut(values: seq<string>, t: seq<Count>, r: seq<Count>)
    requires t == Tally(values)
    requires forall j :: 0 <= j < |t| && t[j] !in r ==> forall k :: 0 <= k < |r| ==> t[j].1 <= r[k].1
    ensures forall v :: v in values && v !in Labels(r) ==>
      forall k :: 0 <= k < |r| ==> multiset(values)[v] <= r[k].1
  {
    forall v | v in values && v !in Labels(r)
      ensures forall k :: 0 <= k < |r| ==> multiset(values)[v] <= r[k].1
    {
      var j :| 0 <= j < |t| && Labels(t)[j] == v;
      assert t[j] !in r;
    }
  }

  /** The labels of a ranking of `values` with exact counts are distinct
      values of `values`, in non-increasing frequency. */
  lemma RankingLabels(values: seq<string>, r: seq<Count>)
    requires DistinctLabels(r) && NonIncreasing(r)
    requires forall k :: 0 <= k < |r| ==> r[k].0 in values && r[k].1 == multiset(values)[r[k].0]
    ensures var ls := Labels(r);
      && (forall j, k :: 0 <= j < k < |ls| ==> ls[j] != ls[k])
      && (forall k :: 0 <= k < |ls| ==> ls[k] in values && multiset(values)[ls[k]] == r[k].1)
      && (forall j, k :: 0 <= j < k < |ls| ==> multiset(values)[ls[j]] >= multiset(values)[ls[k]])
  {
    var ls := Labels(r);
    forall j, k | 0 <= j < k < |ls| ensures ls[j] != ls[k] && multiset(values)[ls[j]] >= multiset(values)[ls[k]] {
      assert ls[j] == r[j].0 && ls[k] == r[k].0;
    }
  }

  /** The values other than the "Unknown" sentinel. */
  function Known(values: seq<string>): (r: seq<string>)
    ensures forall v :: v in r <==> v in values && v != Catalog.Unknown
    ensures forall v :: v != Catalog.Unknown ==> multiset(r)[v] == multiset(values)[v]
  {
    Filter(values, v => v != Catalog.Unknown)
  }

  /** The sentinel filtered out before counting (the "Top Producing
      Countries" chart): the ranking is full whenever enough known values
      exist, and never lists "Unknown". */
  function TopKnown(values: seq<string>, n: nat): (r: seq<Count>)
    ensures |r| == Min(n, |Distinct(Known(values))|)
    ensures Catalog.Unknown !in Labels(r)
    ensures DistinctLabels(r)
    ensures NonIncreasing(r)
    ensures forall k :: 0 <= k < |r| ==> r[k].0 in values && r[k].1 == multiset(values)[r[k].0]
    ensures forall v :: v in values && v != Catalog.Unknown && v !in Labels(r) ==>
      forall k :: 0 <= k < |r| ==> multiset(values)[v] <= r[k].1
  {
    var known := Known(values);
    var r := TopN(known, n);
    assert forall v :: v in values && v != Catalog.Unknown ==> v in known;
    r
  }

  /** The sentinel dropped after `head(n)` (the "Top Production Countries"
      chart): only the listed values other than "Unknown" remain. */
  function TopThenDropUnknown(values: seq<string>, n: nat): (r: seq<Count>)
    ensures |r| <= n
    ensures Catalog.Unknown !in Labels(r)
    ensures forall k :: 0 <= k < |r| ==> r[k].0 in values && r[k].1 == multiset(values)[r[k].0]
    ensures NonIncreasing(r)
    ensures IsSubsequence(r, TopN(values, n))
    ensures forall k :: 0 <= k < |TopN(values, n)| && TopN(values, n)[k].0 != Catalog.Unknown ==>
      TopN(values, n)[k] in r
  {
    var t := TopN(values, n);
    var r := DropUnknown(t);
    SubsequenceNonIncreasing(r, t);
    DropUnknownCounts(values, t);
    r
  }

  /** Deleting lines from a ranking keeps it ranked. */
  lemma {:induction false} SubsequenceNonIncreasing(a: seq<Count>, b: seq<Count>)
    requires IsSubsequence(a, b) && NonIncreasing(b)
    ensures NonIncreasing(a)
    decreases |b|
  {
    if |a| > 0 {
      if a[0] == b[0] && IsSubsequence(a[1..], b[1..]) {
        SubsequenceNonIncreasing(a[1..], b[1..]);
        SubsequenceMembers(a[1..], b[1..]);
        forall j, k | 0 <= j < k < |a| ensures a[j].1 >= a[k].1 {
          assert a[k] == a[1..][k - 1];
          if j > 0 {
            assert a[j] == a[1..][j - 1];
          }
        }
      } else {
        SubsequenceNonIncreasing(a, b[1..]);
      }
    }
  }

  /** The lines of a value count other than the sentinel's, in order. */
  function DropUnknown(t: seq<Count>): (r: seq<Count>)
    ensures |r| <= |t|
    ensures Catalog.Unknown !in Labels(r)
    ensures forall k :: 0 <= k < |r| ==> r[k] in t
    ensures forall k :: 0 <= k < |t| && t[k].0 != Catalog.Unknown ==> t[k] in r
    ensures IsSubsequence(r, t)
    ensures forall x :: multiset(r)[x] == if x.0 != Catalog.Unknown then multiset(t)[x] else 0
  {
    KnownEntriesLabels(t);
    Filter(t, IsKnownEntry)
  }

  /** Dropping lines keeps every remaining line an exact count of `values`. */
  lemma DropUnknownCounts(values: seq<string>, t: seq<Count>)
    requires forall k :: 0 <= k < |t| ==> t[k].0 in values && t[k].1 == multiset(values)[t[k].0]
    ensures var r := DropUnknown(t);
      forall k :: 0 <= k < |r| ==> r[k].0 in values && r[k].1 == multiset(values)[r[k].0]
  {
    var r := DropUnknown(t);
    forall k | 0 <= k < |r| ensures r[k].0 in values && r[k].1 == multiset(values)[r[k].0] {
      var j :| 0 <= j < |t| && t[j] == r[k];
    }
  }

  /** A count line for a value other than the sentinel. */
  predicate IsKnownEntry(p: Count) {
    p.0 != Catalog.Unknown
  }

  lemma KnownEntriesLabels(t: seq<Count>)
    ensures Catalog.Unknown !in Labels(Filter(t, IsKnownEntry))
  {
    var r := Filter(t, IsKnownEntry);
    forall k | 0 <= k < |r| ensures Labels(r)[k] != Catalog.Unknown {
      assert r[k] in r;
    }
  }

  /** The order of "drop Unknown" and `head(n)` matters: when the sentinel
      ranks among the top `n` values, dropping it afterwards leaves one
      entry fewer, while filtering first still fills all `n` places if
      enough known values exist. */
  lemma {:induction false} DropAfterHeadFallsShort(values: seq<string>, n: nat)
    requires Catalog.Unknown in Labels(TopN(values, n))
    requires |Distinct(Known(values))| >= n
    ensures |TopThenDropUnknown(values, n)| == |TopN(values, n)| - 1
    ensures |TopThenDropUnknown(values, n)| < n == |TopKnown(values, n)|
  {
    var t := TopN(values, n);
    var k :| 0 <= k < |t| && Labels(t)[k] == Catalog.Unknown;
    FilterDropsOne(t, IsKnownEntry, k);
  }

  /** Adds one row's key to a group count. */
  function Bump<K(==)>(r0: map<K, nat>, k: Option<K>): map<K, nat> {
    match k
    case None => r0
    case Some(x) => r0[x := (if x in r0 then r0[x] else 0) + 1]
  }

  /** The keys of `r` are exactly the present keys of `rows`. */
  ghost predicate CountsKeys<T, K(!new)>(rows: seq<T>, key: T -> Option<K>, r: map<K, nat>) {
    forall x :: x in r <==> exists i :: 0 <= i < |rows| && key(rows[i]) == Some(x)
  }

  /** The number of rows whose key is `x`. */
  function CountKey<T, K(==)>(rows: seq<T>, key: T -> Option<K>, x: K): nat
    decreases |rows|
  {
    if |rows| == 0 then 0
    else (if key(rows[0]) == Some(x) then 1 else 0) + CountKey(rows[1..], key, x)
  }

  /** Each key of `r` is mapped to the number of rows that have it. */
  ghost predicate CountsRows<T, K>(rows: seq<T>, key: T -> Option<K>, r: map<K, nat>) {
    forall x :: x in r ==> r[x] > 0 && r[x] == CountKey(rows, key, x)
  }

  lemma GroupCountKeys<T(!new), K(!new)>(rows: seq<T>, key: T -> Option<K>, r0: map<K, nat>)
    requires |rows| > 0
    requires CountsKeys(rows[1..], key, r0)
    ensures CountsKeys(rows, key, Bump(r0, key(rows[0])))
  {
    var r := Bump(r0, key(rows[0]));
    forall x ensures x in r <==> exists i :: 0 <= i < |rows| && key(rows[i]) == Some(x) {
      if exists i :: 0 <= i < |rows| && key(rows[i]) == Some(x) {
        var i :| 0 <= i < |rows| && key(rows[i]) == Some(x);
        if i > 0 {
          assert key(rows[1..][i - 1]) == Some(x);
        }
      }
      if x in r0 {
        var i :| 0 <= i < |rows[1..]| && key(rows[1..][i]) == Some(x);
        assert key(rows[i + 1]) == Some(x);
      }
    }
  }

  /** A key no row has is counted zero times. */
  lemma {:induction false} CountKeyAbsent<T, K>(rows: seq<T>, key: T -> Option<K>, x: K)
    requires forall i :: 0 <= i < |rows| ==> key(rows[i]) != Some(x)
    ensures CountKey(rows, key, x) == 0
    decreases |rows|
  {
    if |rows| > 0 {
      CountKeyAbsent(rows[1..], key, x);
    }
  }

  lemma GroupCountRows<T(!new), K(!new)>(rows: seq<T>, key: T -> Option<K>, r0: map<K, nat>)
    requires |rows| > 0
    requires CountsKeys(rows[1..], key, r0) && CountsRows(rows[1..], key, r0)
    ensures CountsRows(rows, key, Bump(r0, key(rows[0])))
  {
    var r := Bump(r0, key(rows[0]));
    forall x | x in r ensures r[x] > 0 && r[x] == CountKey(rows, key, x) {
      if x !in r0 {
        CountKeyAbsent(rows[1..], key, x);
      }
    }
  }

  /** `groupby(key).size()`: how many rows have each present key; rows
      whose key is missing are dropped and no key has count zero. */
  function GroupCount<T(!new), K(==,!new)>(rows: seq<T>, key: T -> Option<K>): (r: map<K, nat>)
    ensures forall x :: x in r <==> exists i :: 0 <= i < |rows| && key(rows[i]) == Some(x)
    ensures forall x :: x in r ==> r[x] > 0 && r[x] == CountKey(rows, key, x)
    decreases |rows|
  {
    if |rows| == 0 then map[]
    else
      var r0 := GroupCount(rows[1..], key);
      GroupCountKeys(rows, key, r0);
      GroupCountRows(rows, key, r0);
      Bump(r0, key(rows[0]))
  }
}

=== FILE: crosstab.dfy ===
/** The genre-by-country heat map: the genre and country long tables are
    joined on the original row index (`pd.merge(..., on="original_index")`),
    restricted to the ten most frequent genres and countries without
    "Unknown", and counted per (genre, country) cell (`pd.crosstab`). */
module CrossTab {
  import opened Base
  import Text
  import Catalog
  import opened Unnest
  import Counts

  /** A (genre, country) pair; also the key of one heat-map cell. */
  type Pair = (string, string)

  /** `v` paired with each of `ws`, in order. */
  function PairWith(v: string, ws: seq<string>): (r: seq<Pair>)
    ensures |r| == |ws|
    ensures forall k :: 0 <= k < |ws| ==> r[k] == (v, ws[k])
  {
    seq(|ws|, k requires 0 <= k < |ws| => (v, ws[k]))
  }

  /** Every pair of one of `vs` with one of `ws`, `vs` outermost. */
  function Product(vs: seq<string>, ws: seq<string>): seq<Pair>
    decreases |vs|
  {
    if |vs| == 0 then []
    else
      var n := |vs| - 1;
      Product(vs[..n], ws) + PairWith(vs[n], ws)
  }

  /** The inner join on the original index: each left entry, in order,
      meets every right entry of the same row. */
  function MergeOnIndex(left: seq<Entry>, right: seq<Entry>): seq<Pair>
    decreases |left|
  {
    if |left| == 0 then []
    else
      var n := |left| - 1;
      MergeOnIndex(left[..n], right) + PairWith(left[n].value, Pieces(right, left[n].index))
  }

  /** `q` pairs the value of some left entry with the value of some right
      entry of the same original row. */
  predicate Joined(left: seq<Entry>, right: seq<Entry>, q: Pair) {
    exists j, k :: 0 <= j < |left| && 0 <= k < |right| && left[j].index == right[k].index
      && q == (left[j].value, right[k].value)
  }

  /** A value is among the pieces of row `i` exactly when some entry of
      row `i` holds it. */
  lemma {:induction false} PiecesMembers(entries: seq<Entry>, i: nat, w: string)
    ensures w in Pieces(entries, i) <==> exists k :: 0 <= k < |entries| && entries[k].index == i && entries[k].value == w
    decreases |entries|
  {
    if |entries| > 0 {
      var n := |entries| - 1;
      PiecesMembers(entries[..n], i, w);
      if exists k :: 0 <= k < |entries| && entries[k].index == i && entries[k].value == w {
        var k :| 0 <= k < |entries| && entries[k].index == i && entries[k].value == w;
        if k < n {
          assert entries[..n][k] == entries[k];
        }
      }
      if w in Pieces(entries[..n], i) {
        var k :| 0 <= k < n && entries[..n][k].index == i && entries[..n][k].value == w;
        assert entries[k] == entries[..n][k];
      }
    }
  }

  /** The index join holds exactly the pairs of values from entries of
      the same original row. */
  lemma {:induction false} MergeMembers(left: seq<Entry>, right: seq<Entry>, q: Pair)
    ensures q in MergeOnIndex(left, right) <==> Joined(left, right, q)
    decreases |left|
  {
    if |left| > 0 {
      var n := |left| - 1;
      MergeMembers(left[..n], right, q);
      PairWithMembers(left[n].value, Pieces(right, left[n].index), q);
      PiecesMembers(right, left[n].index, q.1);
      JoinedLast(left, right, q);
    }
  }

  lemma PairWithMembers(v: string, ws: seq<string>, q: Pair)
    ensures q in PairWith(v, ws) <==> q.0 == v && q.1 in ws
  {
    if q.0 == v && q.1 in ws {
      var k :| 0 <= k < |ws| && ws[k] == q.1;
      assert PairWith(v, ws)[k] == q;
    }
  }

  /** A joined pair comes from the earlier left entries or from the last one. */
  lemma JoinedLast(left: seq<Entry>, right: seq<Entry>, q: Pair)
    requires |left| > 0
    ensures var n := |left| - 1;
      Joined(left, right, q) <==>
        (Joined(left[..n], right, q)
         || (q.0 == left[n].value
             && exists k :: 0 <= k < |right| && right[k].index == left[n].index && right[k].value == q.1))
  {
    var n := |left| - 1;
    var front := left[..n];
    if Joined(front, right, q) {
      var j, k :| 0 <= j < |front| && 0 <= k < |right| && front[j].index == right[k].index
        && q == (front[j].value, right[k].value);
      assert left[j] == front[j];
    }
    if Joined(left, right, q) {
      var j, k :| 0 <= j < |left| && 0 <= k < |right| && left[j].index == right[k].index
        && q == (left[j].value, right[k].value);
      if j < n {
        assert front[j] == left[j];
      }
    }
    if q.0 == left[n].value && exists k :: 0 <= k < |right| && right[k].index == left[n].index && right[k].value == q.1 {
      var k :| 0 <= k < |right| && right[k].index == left[n].index && right[k].value == q.1;
      assert q == (left[n].value, right[k].value);
    }
  }

  /** The pairs of the first rows' pieces, where row `i` of the right
      side is whatever entries of `right` point at `i`. */
  function RowPairs(texts: seq<string>, right: seq<Entry>): seq<Pair>
    decreases |texts|
  {
    if |texts| == 0 then []
    else
      var n := |texts| - 1;
      RowPairs(texts[..n], right) + Product(Text.Split(texts[n]), Pieces(right, n))
  }

  /** For every title, each of its genres paired with each of its
      countries, title by title. */
  function TitlePairs(gs: seq<string>, cs: seq<string>): seq<Pair>
    requires |gs| <= |cs|
    decreases |gs|
  {
    if |gs| == 0 then []
    else
      var n := |gs| - 1;
      TitlePairs(gs[..n], cs) + Product(Text.Split(gs[n]), Text.Split(cs[n]))
  }

  lemma {:induction false} MergeAppend(a: seq<Entry>, b: seq<Entry>, right: seq<Entry>)
    ensures MergeOnIndex(a + b, right) == MergeOnIndex(a, right) + MergeOnIndex(b, right)
    decreases |b|
  {
    if |b| == 0 {
      assert a + b == a;
    } else {
      var n := |b| - 1;
      var last := PairWith(b[n].value, Pieces(right, b[n].index));
      assert MergeOnIndex(a + b, right) == MergeOnIndex(a + b[..n], right) + last by {
        var ab := a + b;
        assert ab[..|ab| - 1] == a + b[..n];
        assert ab[|ab| - 1] == b[n];
      }
      MergeAppend(a, b[..n], right);
      assert MergeOnIndex(b, right) == MergeOnIndex(b[..n], right) + last;
      AppendAssociates(MergeOnIndex(a, right), MergeOnIndex(b[..n], right), last);
    }
  }

  lemma AppendAssociates(x: seq<Pair>, y: seq<Pair>, z: seq<Pair>)
    ensures x + y + z == x + (y + z)
  {
  }

  lemma {:induction false} MergeTag(i: nat, pieces: seq<string>, right: seq<Entry>)
    ensures MergeOnIndex(Tag(i, pieces), right) == Product(pieces, Pieces(right, i))
    decreases |pieces|
  {
    if |pieces| > 0 {
      var n := |pieces| - 1;
      assert Tag(i, pieces)[..n] == Tag(i, pieces[..n]);
      MergeTag(i, pieces[..n], right);
    }
  }

  lemma {:induction false} MergeExplode(texts: seq<string>, right: seq<Entry>)
    ensures MergeOnIndex(Explode(texts), right) == RowPairs(texts, right)
    decreases |texts|
  {
    if |texts| > 0 {
      var n := |texts| - 1;
      MergeExplode(texts[..n], right);
      MergeAppend(Explode(texts[..n]), Tag(n, Text.Split(texts[n])), right);
      MergeTag(n, Text.Split(texts[n]), right);
    }
  }

  lemma {:induction false} RowPairsExplode(gs: seq<string>, cs: seq<string>)
    requires |gs| <= |cs|
    ensures RowPairs(gs, Explode(cs)) == TitlePairs(gs, cs)
    decreases |gs|
  {
    if |gs| > 0 {
      var n := |gs| - 1;
      RowPairsExplode(gs[..n], cs);
      ExplodePieces(cs, n);
    }
  }

  /** Joining two long tables of the same catalog on the original index
      gives, title by title, every pairing of the title's values. */
  lemma MergeIsPerTitleProduct(catalog: seq<Catalog.Title>, a: Column, b: Column)
    ensures MergeOnIndex(UnnestColumn(catalog, a), UnnestColumn(catalog, b))
      == TitlePairs(Texts(catalog, a), Texts(catalog, b))
  {
    MergeExplode(Texts(catalog, a), UnnestColumn(catalog, b));
    RowPairsExplode(Texts(catalog, a), Texts(catalog, b));
  }

  lemma {:induction false} PairWithCount(v: string, ws: seq<string>, p: Pair)
    ensures multiset(PairWith(v, ws))[p] == if p.0 == v then multiset(ws)[p.1] else 0
    decreases |ws|
  {
    if |ws| > 0 {
      var n := |ws| - 1;
      assert PairWith(v, ws) == PairWith(v, ws[..n]) + [(v, ws[n])];
      assert ws == ws[..n] + [ws[n]];
      PairWithCount(v, ws[..n], p);
    }
  }

  /** A pair occurs in a product as often as its halves occur on their sides. */
  lemma {:induction false} ProductCount(vs: seq<string>, ws: seq<string>, p: Pair)
    ensures multiset(Product(vs, ws))[p] == multiset(vs)[p.0] * multiset(ws)[p.1]
    decreases |vs|
  {
    if |vs| > 0 {
      var n := |vs| - 1;
      ProductCount(vs[..n], ws, p);
      PairWithCount(vs[n], ws, p);
      assert vs == vs[..n] + [vs[n]];
      var a := multiset(vs[..n])[p.0];
      var b := multiset(ws)[p.1];
      var e := if vs[n] == p.0 then 1 else 0;
      assert multiset(Product(vs, ws))[p] == a * b + e * b by {
        assert multiset(Product(vs, ws))
          == multiset(Product(vs[..n], ws)) + multiset(PairWith(vs[n], ws));
      }
      assert multiset(vs)[p.0] == a + e;
      MulDistributes(a, e, b);
    }
  }

  lemma MulDistributes(a: nat, e: nat, b: nat)
    ensures (a + e) * b == a * b + e * b
  {
  }

  /** The reference count of a heat-map cell: over all titles, the number
      of times the title lists genre `p.0` times the number of times it
      lists country `p.1`. */
  function CellCount(gs: seq<string>, cs: seq<string>, p: Pair): nat
    requires |gs| <= |cs|
    decreases |gs|
  {
    if |gs| == 0 then 0
    else
      var n := |gs| - 1;
      CellCount(gs[..n], cs, p)
        + multiset(Text.Split(gs[n]))[p.0] * multiset(Text.Split(cs[n]))[p.1]
  }

  lemma {:induction false} TitlePairsCount(gs: seq<string>, cs: seq<string>, p: Pair)
    requires |gs| <= |cs|
    ensures multiset(TitlePairs(gs, cs))[p] == CellCount(gs, cs, p)
    decreases |gs|
  {
    if |gs| > 0 {
      var n := |gs| - 1;
      TitlePairsCount(gs[..n], cs, p);
      ProductCount(Text.Split(gs[n]), Text.Split(cs[n]), p);
    }
  }

  /** A heat map: its row labels, column labels and a count for every
      (row, column) cell, zero included. */
  datatype Heatmap = Heatmap(rows: set<string>, cols: set<string>, cells: map<Pair, nat>)

  /** A joined pair the heat map keeps: a top genre and a top country that
      is not the sentinel. */
  predicate Kept(topGenres: seq<string>, topCountries: seq<string>, p: Pair) {
    p.0 in topGenres && p.1 in topCountries && p.1 != Catalog.Unknown
  }

  /** The ten most frequent values of a long table. */
  function Top10(entries: seq<Entry>): (ts: seq<string>)
    ensures |ts| == Counts.Min(10, |Counts.Distinct(Values(entries))|)
    ensures forall j, k :: 0 <= j < k < |ts| ==> ts[j] != ts[k]
    ensures forall k :: 0 <= k < |ts| ==> ts[k] in Values(entries)
    ensures forall j, k :: 0 <= j < k < |ts| ==>
      multiset(Values(entries))[ts[j]] >= multiset(Values(entries))[ts[k]]
    ensures forall v :: v in Values(entries) && v !in ts ==>
      forall k :: 0 <= k < |ts| ==> multiset(Values(entries))[v] <= multiset(Values(entries))[ts[k]]
  {
    var r := Counts.TopN(Values(entries), 10);
    Counts.RankingLabels(Values(entries), r);
    Counts.Labels(r)
  }

  /** `pd.crosstab` of a list of pairs: one row per first value, one
      column per second value, each cell the number of times that pair
      occurs (zero where it never does). */
  function Crosstab(pairs: seq<Pair>): (h: Heatmap)
    ensures forall g :: g in h.rows <==> exists c :: (g, c) in pairs
    ensures forall c :: c in h.cols <==> exists g :: (g, c) in pairs
    ensures forall p :: p in h.cells <==> p.0 in h.rows && p.1 in h.cols
    ensures forall p :: p in h.cells ==> h.cells[p] == multiset(pairs)[p]
  {
    var rows := set p | p in pairs :: p.0;
    var cols := set p | p in pairs :: p.1;
    var grid := set g, c | g in rows && c in cols :: (g, c);
    Heatmap(rows, cols, map p | p in grid :: multiset(pairs)[p])
  }

  /** The joined pairs the heat map keeps, with their multiplicities. */
  function KeptPairs(merged: seq<Pair>, topGenres: seq<string>, topCountries: seq<string>): (r: seq<Pair>)
    ensures forall p :: p in r <==> p in merged && Kept(topGenres, topCountries, p)
    ensures forall p :: Kept(topGenres, topCountries, p) ==> multiset(r)[p] == multiset(merged)[p]
  {
    Filter(merged, p => Kept(topGenres, topCountries, p))
  }

  /** The market-opportunity heat map built from the genre and country
      long tables. */
  function BuildHeatmap(genres: seq<Entry>, countries: seq<Entry>): (h: Heatmap)
    ensures Catalog.Unknown !in h.cols
    ensures forall g :: g in h.rows ==> g in Top10(genres)
    ensures forall c :: c in h.cols ==> c in Top10(countries)
    ensures forall p :: p in h.cells <==> p.0 in h.rows && p.1 in h.cols
    ensures forall p :: p in h.cells ==> h.cells[p] == multiset(MergeOnIndex(genres, countries))[p]
    ensures forall p :: p in MergeOnIndex(genres, countries) && Kept(Top10(genres), Top10(countries), p) ==>
      p in h.cells && h.cells[p] > 0
    ensures forall g :: g in h.rows <==>
      exists c :: (g, c) in MergeOnIndex(genres, countries) && Kept(Top10(genres), Top10(countries), (g, c))
    ensures forall c :: c in h.cols <==>
      exists g :: (g, c) in MergeOnIndex(genres, countries) && Kept(Top10(genres), Top10(countries), (g, c))
  {
    var topG := Top10(genres);
    var topC := Top10(countries);
    var merged := MergeOnIndex(genres, countries);
    var kept := KeptPairs(merged, topG, topC);
    CrosstabLabels(kept, topG, topC);
    KeptCellCounts(merged, topG, topC);
    KeptCellsPositive(merged, topG, topC);
    KeptLabelsExact(merged, topG, topC);
    Crosstab(kept)
  }

  /** A cross-tab of kept pairs has only kept labels. */
  lemma CrosstabLabels(pairs: seq<Pair>, topGenres: seq<string>, topCountries: seq<string>)
    requires forall p :: p in pairs ==> Kept(topGenres, topCountries, p)
    ensures forall g :: g in Crosstab(pairs).rows ==> g in topGenres
    ensures forall c :: c in Crosstab(pairs).cols ==> c in topCountries && c != Catalog.Unknown
  {
    var h := Crosstab(pairs);
    forall g | g in h.rows ensures g in topGenres {
      var c :| (g, c) in pairs;
    }
    forall c | c in h.cols ensures c in topCountries && c != Catalog.Unknown {
      var g :| (g, c) in pairs;
    }
  }

  /** Every cell of the kept cross-tab counts its pair as often as the
      join holds it. */
  lemma KeptCellCounts(merged: seq<Pair>, topGenres: seq<string>, topCountries: seq<string>)
    ensures var h := Crosstab(KeptPairs(merged, topGenres, topCountries));
      forall p :: p in h.cells ==> h.cells[p] == multiset(merged)[p]
  {
    var kept := KeptPairs(merged, topGenres, topCountries);
    var h := Crosstab(kept);
    CrosstabLabels(kept, topGenres, topCountries);
    forall p | p in h.cells ensures h.cells[p] == multiset(merged)[p] {
      assert Kept(topGenres, topCountries, p);
    }
  }

  /** Each kept pair that occurs in the join has a positive cell. */
  lemma KeptCellsPositive(merged: seq<Pair>, topGenres: seq<string>, topCountries: seq<string>)
    ensures var h := Crosstab(KeptPairs(merged, topGenres, topCountries));
      forall p :: p in merged && Kept(topGenres, topCountries, p) ==> p in h.cells && h.cells[p] > 0
  {
    var kept := KeptPairs(merged, topGenres, topCountries);
    var h := Crosstab(kept);
    forall p | p in merged && Kept(topGenres, topCountries, p) ensures p in h.cells && h.cells[p] > 0 {
      assert p in kept;
    }
  }

  /** The kept cross-tab's labels are exactly those of the kept joined pairs. */
  lemma KeptLabelsExact(merged: seq<Pair>, topGenres: seq<string>, topCountries: seq<string>)
    ensures var h := Crosstab(KeptPairs(merged, topGenres, topCountries));
      forall g :: g in h.rows <==> exists c :: (g, c) in merged && Kept(topGenres, topCountries, (g, c))
    ensures var h := Crosstab(KeptPairs(merged, topGenres, topCountries));
      forall c :: c in h.cols <==> exists g :: (g, c) in merged && Kept(topGenres, topCountries, (g, c))
  {
    var kept := KeptPairs(merged, topGenres, topCountries);
    var h := Crosstab(kept);
    forall g ensures g in h.rows <==> exists c :: (g, c) in merged && Kept(topGenres, topCountries, (g, c)) {
      if g in h.rows {
        var c :| (g, c) in kept;
        assert (g, c) in merged && Kept(topGenres, topCountries, (g, c));
      }
      if exists c :: (g, c) in merged && Kept(topGenres, topCountries, (g, c)) {
        var c :| (g, c) in merged && Kept(topGenres, topCountries, (g, c));
        assert (g, c) in kept;
      }
    }
    forall c ensures c in h.cols <==> exists g :: (g, c) in merged && Kept(topGenres, topCountries, (g, c)) {
      if c in h.cols {
        var g :| (g, c) in kept;
        assert (g, c) in merged && Kept(topGenres, topCountries, (g, c));
      }
      if exists g :: (g, c) in merged && Kept(topGenres, topCountries, (g, c)) {
        var g :| (g, c) in merged && Kept(topGenres, topCountries, (g, c));
        assert (g, c) in kept;
      }
    }
  }

  /** Each cell of the catalog's heat map counts, over all titles, the
      pairings of that genre with that country. */
  lemma HeatmapCellPerTitle(catalog: seq<Catalog.Title>, p: Pair)
    ensures var h := BuildHeatmap(UnnestColumn(catalog, ListedIn), UnnestColumn(catalog, Country));
      p in h.cells ==> h.cells[p] == CellCount(Texts(catalog, ListedIn), Texts(catalog, Country), p)
  {
    MergeIsPerTitleProduct(catalog, ListedIn, Country);
    TitlePairsCount(Texts(catalog, ListedIn), Texts(catalog, Country), p);
  }
}

=== FILE: reports.dfy ===
/** The report tabs' uses of the helpers: the load-then-unnest pipeline,
    the top-N charts with their two placements of the "Unknown" filter,
    and the grouped counts behind the time-series and audience charts. */
module Reports {
  import opened Base
  import Catalog
  import opened Unnest
  import opened Counts

  /** A title whose country cell was empty in the file appears in the
      country long table exactly once, as "Unknown"; the same holds for
      director and cast. */
  lemma MissingCellUnnestsToUnknown(file: Option<seq<Catalog.RawTitle>>, i: nat, col: Column)
    requires Catalog.Load(file).Success? && i < |file.value|
    requires col == Cast || col == Director || col == Country
    requires match col
      case Cast => file.value[i].cast.None?
      case Director => file.value[i].director.None?
      case Country => file.value[i].country.None?
      case ListedIn => false
    ensures Pieces(UnnestColumn(Catalog.Load(file).value, col), i) == [Catalog.Unknown]
  {
    var catalog := Catalog.Load(file).value;
    assert Catalog.Describes(file.value[i], catalog[i]);
    UnknownSingleEntry(catalog, col, i);
  }

  /** "Top Producing Countries": the sentinel is removed before counting,
      so all fifteen places go to real countries when there are enough. */
  function TopProducingCountries(countries: seq<Entry>): (r: seq<Count>)
    ensures |r| == Min(15, |Distinct(Known(Values(countries)))|)
    ensures Catalog.Unknown !in Labels(r)
    ensures DistinctLabels(r)
    ensures NonIncreasing(r)
    ensures forall k :: 0 <= k < |r| ==>
      r[k].0 in Values(countries) && r[k].1 == multiset(Values(countries))[r[k].0]
    ensures forall v :: v in Values(countries) && v != Catalog.Unknown && v !in Labels(r) ==>
      forall k :: 0 <= k < |r| ==> multiset(Values(countries))[v] <= r[k].1
  {
    TopKnown(Values(countries), 15)
  }

  /** "Top 15 Genres": the fifteen most frequent genre entries. */
  function TopGenres(genres: seq<Entry>): (r: seq<Count>)
    ensures |r| == Min(15, |Distinct(Values(genres))|)
    ensures DistinctLabels(r)
    ensures NonIncreasing(r)
    ensures forall k :: 0 <= k < |r| ==> r[k].0 in Values(genres) && r[k].1 == multiset(Values(genres))[r[k].0]
    ensures forall v :: v in Values(genres) && v !in Labels(r) ==>
      forall k :: 0 <= k < |r| ==> multiset(Values(genres))[v] <= r[k].1
  {
    TopN(Values(genres), 15)
  }

  /** "Top Production Countries": `head(10)` first, then the sentinel is
      dropped, which can leave fewer than ten bars. */
  function TopProductionCountries(countries: seq<Entry>): (r: seq<Count>)
    ensures |r| <= 10
    ensures Catalog.Unknown !in Labels(r)
    ensures NonIncreasing(r)
    ensures forall k :: 0 <= k < |r| ==> r[k].1 == multiset(Values(countries))[r[k].0]
    ensures IsSubsequence(r, TopN(Values(countries), 10))
    ensures forall k :: 0 <= k < |TopN(Values(countries), 10)| && TopN(Values(countries), 10)[k].0 != Catalog.Unknown ==>
      TopN(Values(countries), 10)[k] in r
  {
    TopThenDropUnknown(Values(countries), 10)
  }

  /** The (year added, type) key of a title; none without an add date. */
  function YearTypeKey(t: Catalog.Title): Option<(int, string)> {
    if t.yearAdded.Some? then Some((t.yearAdded.value, t.kind)) else None
  }

  /** "Content Added Over Years": titles per (year added, type); titles
      without an add year are not counted. */
  function YearTypeCounts(catalog: seq<Catalog.Title>): (r: map<(int, string), nat>)
    ensures forall y, k :: (y, k) in r <==>
      exists i :: 0 <= i < |catalog| && catalog[i].yearAdded == Some(y) && catalog[i].kind == k
    ensures forall x :: x in r ==> r[x] == CountKey(catalog, YearTypeKey, x)
  {
    GroupCount(catalog, YearTypeKey)
  }

  /** The (audience, type) key of a title; none without a bucket. */
  function AudienceTypeKey(t: Catalog.Title): Option<(Catalog.Audience, string)> {
    if t.contentFor.Some? then Some((t.contentFor.value, t.kind)) else None
  }

  /** "Rating Distribution by Content Type": titles per (audience, type);
      titles without a bucket are not counted. */
  function AudienceTypeCounts(catalog: seq<Catalog.Title>): (r: map<(Catalog.Audience, string), nat>)
    ensures forall a, k :: (a, k) in r <==>
      exists i :: 0 <= i < |catalog| && catalog[i].contentFor == Some(a) && catalog[i].kind == k
    ensures forall x :: x in r ==> r[x] == CountKey(catalog, AudienceTypeKey, x)
  {
    GroupCount(catalog, AudienceTypeKey)
  }
}

=== FILE: simulator.dfy ===
/** The content-strategy simulator: the catalog rows matching a genre, a
    type and an audience bucket, and the market-saturation tier of their
    number. */
module Simulator {
  import opened Base
  import Text
  import opened Catalog

  /** The simulator's mask for one row: the genre list contains the genre
      text (a literal, case-sensitive substring test; a missing genre list
      never matches), the type is the chosen one and the audience bucket is
      the chosen one. */
  predicate Matches(t: Title, genre: string, kind: string, audience: Audience)
    ensures Matches(t, genre, kind, audience) <==>
      && t.listedIn.Some? && (exists i: nat :: Text.OccursAt(t.listedIn.value, genre, i))
      && t.kind == kind
      && t.contentFor == Some(audience)
  {
    && t.listedIn.Some? && Text.Contains(t.listedIn.value, genre)
    && t.kind == kind
    && t.contentFor == Some(audience)
  }

  /** `df[mask]`: exactly the matching rows, in catalog order, repeats kept. */
  function Simulate(catalog: seq<Title>, genre: string, kind: string, audience: Audience): (r: seq<Title>)
    ensures |r| <= |catalog|
    ensures forall t :: t in r ==> t in catalog && Matches(t, genre, kind, audience)
    ensures forall i :: 0 <= i < |catalog| && Matches(catalog[i], genre, kind, audience) ==> catalog[i] in r
    ensures forall t :: multiset(r)[t] == if Matches(t, genre, kind, audience) then multiset(catalog)[t] else 0
    ensures IsSubsequence(r, catalog)
  {
    Filter(catalog, t => Matches(t, genre, kind, audience))
  }

  /** A row without an audience bucket never matches, whatever is chosen. */
  lemma NoBucketNeverMatches(catalog: seq<Title>, genre: string, kind: string, audience: Audience, i: nat)
    requires i < |catalog| && catalog[i].contentFor.None?
    ensures catalog[i] !in Simulate(catalog, genre, kind, audience)
  {
  }

  /** The genre test matches inside longer genre names: choosing
      "Comedies" also selects a title listed only under "TV Comedies". */
  lemma GenreMatchesInsideLongerName()
    ensures Text.Contains("International TV Shows, TV Comedies", "Comedies")
  {
    var hay := "International TV Shows, TV Comedies";
    assert hay[27..35] == "Comedies";
    assert Text.OccursAt(hay, "Comedies", 27);
  }

  /** The market status shown for a simulated launch. */
  datatype Market =
    | NoContent    // no matching title: the "untapped opportunity" warning
    | BlueOcean    // fewer than 50 matching titles
    | Competitive  // 50 to 199
    | Saturated    // 200 or more

  /** The saturation gauge for `count` matching titles. */
  function MarketStatus(count: nat): (m: Market)
    ensures m == NoContent <==> count == 0
    ensures m == BlueOcean <==> 1 <= count < 50
    ensures m == Competitive <==> 50 <= count < 200
    ensures m == Saturated <==> 200 <= count
  {
    if count == 0 then NoContent
    else if count < 50 then BlueOcean
    else if count < 200 then Competitive
    else Saturated
  }

  /** How crowded a market status is, from empty to saturated. */
  function Crowding(m: Market): nat {
    match m
    case NoContent => 0
    case BlueOcean => 1
    case Competitive => 2
    case Saturated => 3
  }

  /** More matching titles never give a less crowded status. */
  lemma MarketStatusMonotone(a: nat, b: nat)
    requires a <= b
    ensures Crowding(MarketStatus(a)) <= Crowding(MarketStatus(b))
  {
  }

  /** The number of matching rows, counted row by row. */
  function MatchCount(catalog: seq<Title>, genre: string, kind: string, audience: Audience): nat
    decreases |catalog|
  {
    if |catalog| == 0 then 0
    else (if Matches(catalog[0], genre, kind, audience) then 1 else 0) + MatchCount(catalog[1..], genre, kind, audience)
  }

  /** The selection holds one row per matching row of the catalog. */
  lemma {:induction false} SimulateCount(catalog: seq<Title>, genre: string, kind: string, audience: Audience)
    ensures |Simulate(catalog, genre, kind, audience)| == MatchCount(catalog, genre, kind, audience)
    decreases |catalog|
  {
    if |catalog| > 0 {
      SimulateCount(catalog[1..], genre, kind, audience);
    }
  }

  /** The report for one choice of genre, type and audience: the tier of
      the number of matching rows; "no existing content" exactly when no
      row matches. */
  function Report(catalog: seq<Title>, genre: string, kind: string, audience: Audience): (m: Market)
    ensures m == MarketStatus(MatchCount(catalog, genre, kind, audience))
    ensures m == NoContent <==> forall i :: 0 <= i < |catalog| ==> !Matches(catalog[i], genre, kind, audience)
  {
    var r := Simulate(catalog, genre, kind, audience);
    assert |r| > 0 ==> r[0] in r;
    SimulateCount(catalog, genre, kind, audience);
    MarketStatus(|r|)
  }

  /** A genre no title lists gives an empty selection and the
      no-existing-content branch, never an error. */
  lemma AbsentGenre(catalog: seq<Title>, genre: string, kind: string, audience: Audience)
    requires forall i :: 0 <= i < |catalog| ==>
      catalog[i].listedIn.None? || !Text.Contains(catalog[i].listedIn.value, genre)
    ensures Simulate(catalog, genre, kind, audience) == []
    ensures Report(catalog, genre, kind, audience) == NoContent
  {
  }
}

=== FILE: text.dfy ===
/** The string operations the dashboard relies on: splitting on the list
    separator ", " (Python's `str.split(", ")`), joining back, taking the
    first space-delimited token (`str.split(" ")[0]`), reading a decimal
    number, and the literal substring test used by the simulator. */
module Text {

  /** The separator between the values of a multi-valued column. */
  const Sep: string := ", "

  /** `f` holds no occurrence of the separator ", ". */
  predicate NoSep(f: string) {
    forall i :: 0 <= i < |f| - 1 ==> !(f[i] == ',' && f[i + 1] == ' ')
  }

  /** Python's `Sep.join(parts)`. */
  function Join(parts: seq<string>): string
    decreases |parts|
  {
    if |parts| == 0 then ""
    else if |parts| == 1 then parts[0]
    else parts[0] + Sep + Join(parts[1..])
  }

  /** Python's `s.split(", ")`: the maximal pieces of `s` between
      occurrences of the separator, found left to right. There is always
      at least one piece (the empty string splits into `[""]`). */
  function Split(s: string): (parts: seq<string>)
    ensures |parts| >= 1
    ensures parts[0] <= s
    ensures forall k :: 0 <= k < |parts| ==> NoSep(parts[k])
    decreases |s|
  {
    if |s| < 2 then [s]
    else if s[0] == ',' && s[1] == ' ' then [""] + Split(s[2..])
    else
      var rest := Split(s[1..]);
      var head := [s[0]] + rest[0];
      assert NoSep(head) by {
        if |rest[0]| > 0 {
          assert rest[0][0] == s[1];
        }
      }
      [head] + rest[1..]
  }

  /** Joining the pieces of a split with ", " gives back the text. */
  lemma {:induction false} JoinSplit(s: string)
    ensures Join(Split(s)) == s
    decreases |s|
  {
    if |s| < 2 {
    } else if s[0] == ',' && s[1] == ' ' {
      var rest := Split(s[2..]);
      assert Split(s) == [""] + rest;
      JoinSplit(s[2..]);
      JoinEmptyHead(rest);
      assert s == Sep + s[2..];
    } else {
      var rest := Split(s[1..]);
      assert Split(s) == [[s[0]] + rest[0]] + rest[1..];
      JoinSplit(s[1..]);
      JoinCons(s[0], rest);
      assert s == [s[0]] + s[1..];
    }
  }

  /** An empty first piece contributes only its separator. */
  lemma JoinEmptyHead(rest: seq<string>)
    requires |rest| >= 1
    ensures Join([""] + rest) == Sep + Join(rest)
  {
    assert ([""] + rest)[1..] == rest;
  }

  /** Growing the first piece by one character grows the joined text by it. */
  lemma JoinCons(c: char, parts: seq<string>)
    requires |parts| >= 1
    ensures Join([[c] + parts[0]] + parts[1..]) == [c] + Join(parts)
  {
    var grown := [[c] + parts[0]] + parts[1..];
    if |parts| > 1 {
      var j := Join(parts[1..]);
      assert Join(grown) == ([c] + parts[0]) + Sep + j by {
        assert grown[1..] == parts[1..];
      }
      assert Join(parts) == parts[0] + Sep + j;
      ConsAssociates(c, parts[0], j);
    }
  }

  lemma ConsAssociates(c: char, x: string, y: string)
    ensures [c] + x + Sep + y == [c] + (x + Sep + y)
  {
  }

  /** A piece without a separator is left whole by splitting. */
  lemma {:induction false} SplitNoSep(f: string)
    requires NoSep(f)
    ensures Split(f) == [f]
    decreases |f|
  {
    if |f| >= 2 {
      assert !(f[0] == ',' && f[1] == ' ');
      assert NoSep(f[1..]) by {
        forall i | 0 <= i < |f[1..]| - 1
          ensures !(f[1..][i] == ',' && f[1..][i + 1] == ' ')
        {
          assert f[1..][i] == f[i + 1] && f[1..][i + 1] == f[i + 2];
        }
      }
      SplitNoSep(f[1..]);
      assert [f[0]] + f[1..] == f;
    }
  }

  /** Splitting stops at the first separator after a separator-free piece,
      even when that piece ends with a comma. */
  lemma {:induction false} SplitAfterPiece(f: string, t: string)
    requires NoSep(f)
    ensures Split(f + Sep + t) == [f] + Split(t)
    decreases |f|
  {
    var s := f + Sep + t;
    if |f| == 0 {
      assert s == Sep + t;
      assert s[2..] == t;
    } else {
      assert s[0] == f[0];
      assert !(s[0] == ',' && s[1] == ' ') by {
        if |f| >= 2 {
          assert s[1] == f[1];
        } else {
          assert s[1] == ',';
        }
      }
      var f' := f[1..];
      assert NoSep(f') by {
        forall i | 0 <= i < |f'| - 1
          ensures !(f'[i] == ',' && f'[i + 1] == ' ')
        {
          assert f'[i] == f[i + 1] && f'[i + 1] == f[i + 2];
        }
      }
      assert s[1..] == f' + Sep + t;
      SplitAfterPiece(f', t);
      assert [f[0]] + f' == f;
    }
  }

  /** Joining separator-free pieces and splitting again gives the pieces
      back: `Split` and `Join` are mutually inverse on such lists. */
  lemma {:induction false} SplitJoin(parts: seq<string>)
    requires |parts| >= 1
    requires forall k :: 0 <= k < |parts| ==> NoSep(parts[k])
    ensures Split(Join(parts)) == parts
    decreases |parts|
  {
    if |parts| == 1 {
      SplitNoSep(parts[0]);
    } else {
      SplitJoin(parts[1..]);
      SplitAfterPiece(parts[0], Join(parts[1..]));
      assert [parts[0]] + parts[1..] == parts;
    }
  }

  /** Python's `s.split(" ")[0]`: everything before the first space. */
  function FirstToken(s: string): (tok: string)
    ensures tok <= s
    ensures ' ' !in tok
    ensures |tok| == |s| || s[|tok|] == ' '
    decreases |s|
  {
    if |s| == 0 || s[0] == ' ' then ""
    else
      var rest := FirstToken(s[1..]);
      assert s == [s[0]] + s[1..];
      [s[0]] + rest
  }

  /** The first token of a space-free word followed by a space is the word. */
  lemma {:induction false} FirstTokenBeforeSpace(w: string, rest: string)
    requires ' ' !in w
    ensures FirstToken(w + " " + rest) == w
    decreases |w|
  {
    var s := w + " " + rest;
    if |w| > 0 {
      assert s[0] == w[0];
      assert s[1..] == w[1..] + " " + rest;
      FirstTokenBeforeSpace(w[1..], rest);
      assert [w[0]] + w[1..] == w;
    }
  }

  predicate IsDigit(c: char) {
    '0' <= c <= '9'
  }

  /** A non-empty run of decimal digits. */
  predicate IsNumeral(s: string) {
    |s| > 0 && forall i :: 0 <= i < |s| ==> IsDigit(s[i])
  }

  /** The value of a string of decimal digits, most significant first. */
  function DigitsValue(s: string): nat
    requires forall i :: 0 <= i < |s| ==> IsDigit(s[i])
    decreases |s|
  {
    if |s| == 0 then 0
    else
      assert IsDigit(s[|s| - 1]);
      DigitsValue(s[..|s| - 1]) * 10 + (s[|s| - 1] as int - '0' as int)
  }

  /** The decimal representation of `n` without leading zeros. */
  function Decimal(n: nat): (s: string)
    ensures IsNumeral(s)
    decreases n
  {
    if n < 10 then [('0' as int + n) as char]
    else Decimal(n / 10) + [('0' as int + n % 10) as char]
  }

  /** Reading back a written number gives the number. */
  lemma {:induction false} DigitsValueDecimal(n: nat)
    ensures DigitsValue(Decimal(n)) == n
    decreases n
  {
    if n >= 10 {
      DigitsValueDecimal(n / 10);
      var s := Decimal(n);
      assert s[..|s| - 1] == Decimal(n / 10);
    }
  }

  /** `needle` occurs in `hay` at position `i`. */
  predicate OccursAt(hay: string, needle: string, i: nat) {
    i + |needle| <= |hay| && hay[i..i + |needle|] == needle
  }

  /** A literal (not regular-expression) substring test. */
  function Contains(hay: string, needle: string): (b: bool)
    ensures b <==> exists i: nat :: OccursAt(hay, needle, i)
    decreases |hay|
  {
    if |needle| <= |hay| && hay[..|needle|] == needle then
      assert OccursAt(hay, needle, 0);
      true
    else if |hay| == 0 then false
    else
      var b := Contains(hay[1..], needle);
      assert forall i: nat :: OccursAt(hay[1..], needle, i) <==> OccursAt(hay, needle, i + 1) by {
        forall i: nat ensures OccursAt(hay[1..], needle, i) <==> OccursAt(hay, needle, i + 1) {
          if i + |needle| <= |hay[1..]| {
            assert hay[1..][i..i + |needle|] == hay[i + 1..i + 1 + |needle|];
          }
        }
      }
      assert (exists i: nat :: OccursAt(hay, needle, i)) ==> exists i: nat :: OccursAt(hay[1..], needle, i) by {
        if exists i: nat :: OccursAt(hay, needle, i) {
          var i: nat :| OccursAt(hay, needle, i);
          assert i != 0;
          assert OccursAt(hay[1..], needle, i - 1);
        }
      }
      b
  }
}

=== FILE: unnest.dfy ===
/** The unnester: a multi-valued text column becomes a long table of
    (original row index, single value) entries, one per piece of the
    column's text split on ", " (`astype(str).str.split(", ").explode()`). */
module Unnest {
  import opened Base
  import Text
  import Catalog

  /** One row of a long table: the catalog row it came from and one value. */
  datatype Entry = Entry(index: nat, value: string)

  /** The four multi-valued columns the dashboard unnests. */
  datatype Column = Cast | Director | Country | ListedIn

  /** The text of a column cell after `astype(str)`. The people and country
      columns are never missing after loading; a missing genre list reads
      "nan". */
  function CellText(t: Catalog.Title, col: Column): string {
    match col
    case Cast => t.cast
    case Director => t.director
    case Country => t.country
    case ListedIn => Catalog.Stringify(t.listedIn)
  }

  /** The pieces of row `i`, each tagged with `i`. */
  function Tag(i: nat, pieces: seq<string>): (r: seq<Entry>)
    ensures |r| == |pieces|
    ensures forall k :: 0 <= k < |r| ==> r[k] == Entry(i, pieces[k])
  {
    seq(|pieces|, k requires 0 <= k < |pieces| => Entry(i, pieces[k]))
  }

  /** Some entry points at row `i`. */
  predicate HasEntry(entries: seq<Entry>, i: nat) {
    exists k :: 0 <= k < |entries| && entries[k].index == i
  }

  /** Splits every text and explodes the pieces into entries, row by row. */
  function Explode(texts: seq<string>): (r: seq<Entry>)
    ensures |r| >= |texts|
    ensures forall k :: 0 <= k < |r| ==> r[k].index < |texts|
    ensures forall j, k :: 0 <= j < k < |r| ==> r[j].index <= r[k].index
    ensures forall i :: 0 <= i < |texts| ==> HasEntry(r, i)
    decreases |texts|
  {
    if |texts| == 0 then []
    else
      var n := |texts| - 1;
      var front := Explode(texts[..n]);
      var r := front + Tag(n, Text.Split(texts[n]));
      assert r[|front|].index == n;
      assert forall i :: 0 <= i < n ==> HasEntry(r, i) by {
        forall i | 0 <= i < n ensures HasEntry(r, i) {
          assert HasEntry(front, i);
          var k :| 0 <= k < |front| && front[k].index == i;
          assert r[k] == front[k];
        }
      }
      r
  }

  /** The values of the entries that point at row `i`, in table order. */
  function Pieces(entries: seq<Entry>, i: nat): seq<string>
    decreases |entries|
  {
    if |entries| == 0 then []
    else
      var n := |entries| - 1;
      Pieces(entries[..n], i) + (if entries[n].index == i then [entries[n].value] else [])
  }

  lemma {:induction false} PiecesAppend(a: seq<Entry>, b: seq<Entry>, i: nat)
    ensures Pieces(a + b, i) == Pieces(a, i) + Pieces(b, i)
    decreases |b|
  {
    if |b| > 0 {
      var n := |b| - 1;
      assert (a + b)[..|a + b| - 1] == a + b[..n];
      PiecesAppend(a, b[..n], i);
    } else {
      assert a + b == a;
    }
  }

  lemma {:induction false} PiecesTag(j: nat, pieces: seq<string>, i: nat)
    ensures Pieces(Tag(j, pieces), i) == if i == j then pieces else []
    decreases |pieces|
  {
    if |pieces| > 0 {
      var n := |pieces| - 1;
      assert Tag(j, pieces)[..n] == Tag(j, pieces[..n]);
      PiecesTag(j, pieces[..n], i);
      assert pieces[..n] + [pieces[n]] == pieces;
    }
  }

  /** The entries of row `i` are exactly its split pieces, in order and
      with repeats; rows outside the table have none. */
  lemma {:induction false} ExplodePieces(texts: seq<string>, i: nat)
    ensures Pieces(Explode(texts), i) == if i < |texts| then Text.Split(texts[i]) else []
    decreases |texts|
  {
    if |texts| > 0 {
      var n := |texts| - 1;
      var front := Explode(texts[..n]);
      var last := Tag(n, Text.Split(texts[n]));
      assert Explode(texts) == front + last;
      ExplodePieces(texts[..n], i);
      PiecesAppend(front, last, i);
      PiecesTag(n, Text.Split(texts[n]), i);
      if i < n {
        assert texts[..n][i] == texts[i];
      }
    }
  }

  /** The stringified cells of one column, row by row. */
  function Texts(catalog: seq<Catalog.Title>, col: Column): (ts: seq<string>)
    ensures |ts| == |catalog|
    ensures forall i :: 0 <= i < |catalog| ==> ts[i] == CellText(catalog[i], col)
  {
    seq(|catalog|, i requires 0 <= i < |catalog| => CellText(catalog[i], col))
  }

  /** `unnest_col(df, col)`: the long table of one multi-valued column. */
  function UnnestColumn(catalog: seq<Catalog.Title>, col: Column): (r: seq<Entry>)
    ensures |r| >= |catalog|
    ensures forall k :: 0 <= k < |r| ==> r[k].index < |catalog|
    ensures forall j, k :: 0 <= j < k < |r| ==> r[j].index <= r[k].index
    ensures forall i :: 0 <= i < |catalog| ==> HasEntry(r, i)
  {
    Explode(Texts(catalog, col))
  }

  /** The round trip of unnesting: row `i` has at least one entry, and
      joining its entries' values with ", " gives back the cell text. */
  lemma UnnestRoundTrip(catalog: seq<Catalog.Title>, col: Column, i: nat)
    requires i < |catalog|
    ensures |Pieces(UnnestColumn(catalog, col), i)| >= 1
    ensures Text.Join(Pieces(UnnestColumn(catalog, col), i)) == CellText(catalog[i], col)
    ensures Pieces(UnnestColumn(catalog, col), i) == Text.Split(CellText(catalog[i], col))
  {
    ExplodePieces(Texts(catalog, col), i);
    Text.JoinSplit(CellText(catalog[i], col));
  }

  /** A cell holding the sentinel (a filled-in missing value) yields the
      single entry "Unknown". */
  lemma UnknownSingleEntry(catalog: seq<Catalog.Title>, col: Column, i: nat)
    requires i < |catalog| && CellText(catalog[i], col) == Catalog.Unknown
    ensures Pieces(UnnestColumn(catalog, col), i) == [Catalog.Unknown]
  {
    ExplodePieces(Texts(catalog, col), i);
    Catalog.UnknownHasNoSep();
    Text.SplitNoSep(Catalog.Unknown);
  }

  /** The values of a long table, in order (the column `value_counts` reads). */
  function Values(entries: seq<Entry>): (vs: seq<string>)
    ensures |vs| == |entries|
    ensures forall k :: 0 <= k < |vs| ==> vs[k] == entries[k].value
  {
    seq(|entries|, k requires 0 <= k < |entries| => entries[k].value)
  }
}
